=== FILE: README.md ===
# Portfolio site: chat relay, chat widget and page widgets in Dafny

This project models the logic of a personal portfolio site. The site has two
parts. A serverless function, `api/chat.js`, relays one chat message to a
hosted chat-completion service. A browser script, `js/main.js`, drives the
page. The model lifts the decisions out of the DOM and `fetch` plumbing into
pure functions over immutable datatypes, and proves properties about them.

- `Relay` (`relay.dfy`) covers the request handler. An abstract request is the
  HTTP method plus the body's `message` field. The handler decides exactly one
  `(status, body)` pair, where the body carries either `reply` or `error`. It
  also returns the upstream call it would make, if any. The upstream outcome is
  a parameter: it throws, returns a non-ok status with an error body, or
  returns an ok status with some message content. The checks run in a fixed
  order: method (405), message (400), credential (500), then the upstream call
  (502 or 500, or 200). The status codes are the ones of RFC 9110: section
  15.5.6 (405), section 15.5.1 (400), section 15.6.1 (500), section 15.6.3 (502).
- `ChatWidget` (`chat_widget.dfy`) covers the widget. Its session holds the
  open flag, the transcript, the input text, the disabled state of the input
  and send controls, and the typing indicator. `Send` is the synchronous start
  of `sendMessage`. `Resolve` is what happens once the request settles. `Step`
  dispatches user events; a run of events keeps the transcript as user/bot
  pairs.
- `Conversation` (`conversation.dfy`) composes the two: the widget posts its
  trimmed input, the relay answers, and the widget renders the answer.
- `TypedText` covers the hero's typing effect. `Carousel` covers the image
  carousel's `goTo` and autoplay. `Gallery` covers the lightbox: opening,
  clamping, navigation, counter, keyboard and swipe. `Theme` covers the
  dark/light toggle and the saved choice.
- `JsText` models JavaScript's `trim` (ECMAScript whitespace and line
  terminators), `substring(0, k)` with its clamping, and decimal rendering.
  `JsValues` models truthiness and the truncating `%`.

Three behaviours of the code are worth noting:
- A relay response whose upstream reply is whitespace only is status 200 with
  an empty `reply`. The emptiness check runs before trimming. The widget then
  shows its generic fallback text, because an empty reply is falsy
  (`Relay.WhitespaceReplyIsEmptySuccess`, `Conversation.WhitespaceReplyShowsFallback`).
- An ok upstream response whose body is not JSON makes `response.json()`
  throw. The result is 500 "Internal server error", not 502. Message content
  that is truthy but not a string makes `reply.trim()` throw, which also gives 500.
- The widget has no "awaiting reply" guard. A second send is prevented only
  because the input and the send button are disabled. `Send` therefore
  requires enabled controls, and `Step` drops events aimed at disabled
  controls.

## Model

| member | source | states |
|---|---|---|
| JsText.Trim | api/chat.js:90 | `trim` keeps the slice between leading and trailing whitespace; everything dropped is whitespace; the kept text neither starts nor ends with whitespace; it is empty exactly when the input is all whitespace |
| JsText.TrimIdempotent | api/chat.js:110 | trimming an already trimmed message changes nothing, so the relay's second trim of the client's trimmed text is the identity |
| JsText.Substring0 | js/main.js:91-95 | `substring(0, k)` returns the prefix whose length is `k` clamped into `[0, length]` |
| JsText.DecimalRoundTrip | js/main.js:371 | the numeral rendered for the counter reads back as the same number |
| JsValues.JsRem | js/main.js:256 | JavaScript's `%` takes the sign of the dividend, lies strictly between `-b` and `b`, agrees with the mathematical remainder on non-negative dividends, and differs from the dividend by a multiple of `b`, so it is the truncated remainder for negative dividends too |
| Relay.Handle | api/chat.js:82-136 | the status is one of 200/400/405/500/502; 200 exactly when the body is a `reply`; every `error` text is one of the six fixed texts; a `reply` is the trimmed upstream content; 405 exactly for non-POST, 400 exactly for POST with a bad message, 500 "not configured" for a missing or empty key; the upstream call is made exactly when method, message and key all pass |
| Relay.Forward | api/chat.js:99-115 | the forwarded call has exactly two messages, the system prompt then the trimmed user message, a bearer token from the key, the fixed URL, model and token limit |
| Relay.MapUpstream | api/chat.js:117-135 | a throw gives 500 with the internal-error text; a non-ok upstream gives 502 with a fixed text; absent or empty content gives 502 "No response"; non-empty string content gives 200 with its trim; truthy non-string content gives 500 |
| Relay.ValidMessageMeansText | api/chat.js:88-92 | a message passes exactly when it is a string that is not all whitespace |
| Relay.RejectedBeforeCall | api/chat.js:84-97 | a request rejected before the upstream call gets the same response whatever the upstream would do |
| Relay.UpstreamErrorBodyNeverLeaks | api/chat.js:117-121 | two failing upstream calls with different error bodies give identical responses |
| Relay.WhitespaceReplyIsEmptySuccess | api/chat.js:123-130 | a whitespace-only upstream reply yields status 200 with an empty `reply` |
| ChatWidget.Initial | js/main.js:138 | the widget starts closed, idle and enabled |
| ChatWidget.Toggle | js/main.js:140-148 | toggling flips the open state and changes nothing else |
| ChatWidget.FabIcon | js/main.js:144 | the floating button shows the close mark exactly while the window is open and the chat bubble otherwise |
| ChatWidget.ToggleSwapsIcon | js/main.js:140-148 | every toggle changes the floating button's icon, and two toggles restore it |
| ChatWidget.PageClick | js/main.js:154-158 | a click closes an open widget exactly when it is outside the window and the floating button; everything but the open state stays as it was, including the in-flight state |
| ChatWidget.Send | js/main.js:201-210 | an empty or whitespace-only input changes nothing and sends nothing; otherwise exactly one user entry with the trimmed text is appended, the input is cleared, the controls are disabled, the typing indicator is shown, and the trimmed text is posted |
| ChatWidget.BotText | js/main.js:219-235 | the bot text is a non-empty `reply` of an ok response, else a non-empty `error`, else the fixed fallback; a failed fetch or parse gives the offline text with the email address; it is never empty |
| ChatWidget.Resolve | js/main.js:219-240 | settling removes the typing indicator, appends exactly one bot entry with that text, and re-enables the controls on every path |
| ChatWidget.ExchangeAddsTwoEntries | js/main.js:201-241 | a completed exchange appends exactly the user entry then the bot entry, two entries, and leaves the widget idle |
| ChatWidget.Step | js/main.js:150-168 | input, key and send events do nothing while the controls are disabled; with the controls enabled, the send button and Enter without Shift perform the send, typing sets the input, and any other key does nothing; a settle resolves; the floating and close buttons toggle the widget and a page click performs the outside-click close, neither touching the transcript |
| ChatWidget.RunKeepsPaired | js/main.js:201-241 | along any run of events the transcript only grows, the added entries alternate user/bot, a user entry is unanswered exactly while a request is in flight, and the controls are disabled exactly then |
| ChatWidget.IdleAfterRunHasEvenGrowth | js/main.js:205-240 | from page load, whenever no request is in flight the transcript has grown by an even number of entries, and the controls are disabled exactly while a request is in flight |
| ChatWidget.SendWhileAwaitingIsIgnored | js/main.js:207-208 | while the controls are disabled, Enter and the send button change nothing |
| Conversation.Received | js/main.js:219-222 | the client reads `ok` as a 2xx status and takes the relay's `reply` or `error` text unchanged, whichever the relay sent |
| Conversation.ClientRequest | js/main.js:212-217 | the client always posts, and its `message` passes the relay's message check exactly when the text is not all whitespace |
| Conversation.Exchange | js/main.js:201-241 | a blank input leaves the whole session unchanged; otherwise a send-and-render cycle keeps the old transcript as a prefix and adds exactly two entries; the controls end enabled, and after a real send the indicator is gone and the input is cleared |
| Conversation.ClientRequestsPassValidation | js/main.js:212-217 | the widget's request always passes the relay's method and message checks, so it never sees 405 or 400 |
| Conversation.ForwardedMessageIsTrimmedInput | api/chat.js:106-111 | with a key configured, the user message forwarded upstream is exactly the user's trimmed input |
| Conversation.ExchangeOutcome | js/main.js:212-240 | after a full exchange the transcript gains the user's text and one bot entry, which is the relay's non-empty reply, the fallback for an empty reply, or the relay's error text; the widget is idle again |
| Conversation.WhitespaceReplyShowsFallback | api/chat.js:123-130 | a whitespace-only upstream reply ends as the fallback text in the transcript |
| TypedText.Step | js/main.js:87-110 | delay 1800 exactly when typing completes the phrase, and deletion starts with the whole phrase; delay 400 exactly when deleting removes the last character, and typing restarts at 0 on the next phrase, modulo the count; otherwise 120 while typing and 60 while deleting, with the character index moved by one |
| TypedText.StepShowsPrefix | js/main.js:87-98 | from a valid cursor the next cursor is valid, so `0 <= charIndex <= phrase length` always holds, and the text shown is the first `charIndex` characters of the current phrase |
| TypedText.TypingPhase | js/main.js:94-102 | from any typing cursor, the rest of the phrase is typed one character per step, ending in deletion mode with the full phrase |
| TypedText.DeletingPhase | js/main.js:90-106 | from any deleting cursor, one character goes per step, ending at the start of the next phrase |
| TypedText.FullCycle | js/main.js:87-110 | typing and deleting a phrase takes twice its length in steps and moves to the next phrase, wrapping around |
| TypedText.StartIsValid | js/main.js:80-84 | the site's phrases are non-empty and the start cursor is valid |
| Carousel.Initial | js/main.js:250 | the carousel with the given numbers of images and dots starts on image 0 with exactly that image and its dot active |
| Carousel.GoTo | js/main.js:253-259 | for `index >= -size` the new current is `index mod size`, in range; it throws exactly when the truncating remainder is negative; if exactly the old current was active, exactly the new one is active after |
| Carousel.AutoPlay | js/main.js:261-263 | ticking keeps the number of images and dots, and after at least one successful tick the current image is one of the carousel's images |
| Carousel.AutoPlayAdvances | js/main.js:261-263 | `k` autoplay ticks never throw, keep exactly one image active and move to `(current + k) mod size` |
| Carousel.AutoPlayWrapsAround | js/main.js:261-263 | one tick per image brings the carousel back to its starting state |
| Gallery.Frame | js/main.js:382-384 | a frame is rendered exactly when the index is on a picture, and it is the picture at the current index |
| Gallery.OpenGalleryShowsStart | js/main.js:349-384 | opening a gallery at one of its indices renders that picture |
| Gallery.OpenGallery | js/main.js:349-355 | opening uses the registered gallery or an empty one, and clamps the start index to `max(0, min(start, length - 1))`, so a non-empty gallery opens on a picture |
| Gallery.OpenLightbox | js/main.js:358-364 | a single picture opens as a one-item gallery showing that picture |
| Gallery.CloseLightbox | js/main.js:433-436 | closing keeps the gallery and the index |
| Gallery.UpdateMeta | js/main.js:366-379 | the caption is the current picture's; the counter "i+1 / total" and the arrows are shown exactly when there is more than one picture |
| Gallery.CounterIdentifiesPosition | js/main.js:371 | two galleries showing the same counter have the same position and the same total |
| Gallery.Nav | js/main.js:426-431 | navigation is a no-op for at most one picture; otherwise the index moves by the direction modulo the total and stays in range |
| Gallery.NavRoundTrip | js/main.js:426-431 | next then previous, and previous then next, return to the same picture |
| Gallery.OnKey | js/main.js:439-444 | keys do nothing while closed; Escape closes; the left and right arrows navigate; other keys do nothing |
| Gallery.OnSwipe | js/main.js:447-454 | a swipe of at most 50 pixels does nothing; a longer leftward swipe goes to the next picture and a rightward one to the previous |
| Gallery.GesturesKeepInRange | js/main.js:439-454 | any sequence of keys and swipes keeps the gallery and keeps the index on one of its pictures |
| Gallery.SwipeNavigatesWhileClosed | js/main.js:451-454 | the swipe handler does not check that the lightbox is open: on a closed lightbox over several pictures, a long swipe still moves the index to the next or previous picture, and the lightbox stays closed |
| Gallery.ClosedIgnoresGestures | js/main.js:345-454 | from the initial lightbox state (lines 345-346), before any gallery is opened, no sequence of keys and swipes changes the lightbox |
| Theme.ApplyTheme | js/main.js:13-23 | exactly one theme class is set, the icon offers the other theme, and other classes are untouched |
| Theme.Load | js/main.js:26-27 | the page loads dark unless the saved value is exactly "light", and classes other than the two theme classes are kept |
| Theme.Toggle | js/main.js:29-33 | toggling flips the theme and saves the new theme's name |
| Theme.ToggleTwice | js/main.js:29-33 | toggling twice restores the classes and icon |
| Theme.ReloadKeepsToggledTheme | js/main.js:26-33 | reloading after a toggle shows the theme the toggle chose |

## Left out

- `fetch`, JSON encoding and parsing, `process.env` and `console.error` are abstract. The upstream outcome, the credential and the client's outcome are parameters. The upstream error body is kept only to state that it does not leak.
- The system prompt text and the gallery image data are opaque. Both are parameters.
- The `temperature: 0.7` field of the upstream call is omitted. It is a floating-point constant with nothing to reason about.
- Timers are not modelled. The typing effect returns its delay, and the 800 ms delay before its first step is not modelled. Carousel autoplay's 3000 ms interval is not modelled either. Carousel autoplay is a number of ticks. Pausing on hover and resuming (js/main.js:265-278) are not modelled.
- The lightbox slide animation (js/main.js:386-424) is not modelled. The picture shown is the one at the current index.
- Focus handling (js/main.js:146, 239), scrolling the transcript, and the DOM node of the typing indicator are not modelled. The indicator is a flag.
- The AOS init, the hamburger menu, active-link highlighting on scroll, the navbar shadow and the scroll-to-top button (js/main.js:5-6, 35-77, 114-127) are not modelled. They are pure class toggling driven by library or scroll callbacks.
- Closing the widget while a request is pending is allowed as an event, but event-loop interleaving is not modelled.
- Strings are sequences of code points, while JavaScript indexes UTF-16 code units. The site's phrases are ASCII, where the two agree.
- Conversation.Received: the client's `reply` and `error` are strings. The relay sends no other type. A response body of JSON `null` throws in the client, which falls under the transport-failure outcome.
- Carousel.GoTo: a dot index that `parseInt` reads as `NaN` is not modelled; the index is an integer. The carousel's state after a thrown `TypeError` is not modelled either (`None`).
- Gallery.OpenGallery: a start index of `undefined` or `NaN` is not modelled, and neither is a key that names an inherited object property.
- Gallery.OnSwipe: the swipe distance is an integer, while `screenX` is a floating-point number.
- TypedText.StepShowsPrefix: the shown-text and range properties are stated for valid cursors over non-empty phrases. With an empty phrase, the source's `charIndex` grows without bound.
- ChatWidget.Send: requires enabled controls, because the source has no guard of its own.
- Carousel.Initial: the first image and dot being active at load comes from the page's markup, which is not part of this model.
- Gallery.UpdateMeta: requires the index to be on a picture; its only caller returns early when there is no picture (js/main.js:383-384).

=== FILE: carousel.dfy ===
/** The project-screenshot carousel: `size` images, `dotCount` navigation
    dots, the index of the current image, and the sets of images and dots
    carrying the `active` class. Timers are not modelled: autoplay is the
    repeated step `GoTo(current + 1)`. */
module Carousel {
  import opened JsValues

  datatype Carousel = Carousel(
    size: nat,
    dotCount: nat,
    current: int,
    activeImages: set<int>,
    activeDots: set<int>)

  /** Exactly the current image is active, and exactly its dot if it has one. */
  predicate OneActive(c: Carousel) {
    && 0 <= c.current < c.size
    && c.activeImages == {c.current}
    && c.activeDots == (if c.current < c.dotCount then {c.current} else {})
  }

  /** The carousel as the page starts it, with its first image active. */
  function Initial(size: nat, dotCount: nat): (c: Carousel)
    requires size > 0
    ensures OneActive(c) && c.current == 0
    ensures c.size == size && c.dotCount == dotCount
  {
    Carousel(size, dotCount, 0, {0}, if 0 < dotCount then {0} else {})
  }

  /** `goTo(index)`. It deactivates the current image and its dot (a missing
      dot is skipped), moves to `(index + size) % size` with JavaScript's
      truncating remainder, and activates the new image and dot. `None` is the
      `TypeError` thrown when the image to touch does not exist: no images,
      a current index out of range, or a negative remainder. */
  function GoTo(c: Carousel, index: int): (r: Option<Carousel>)
    ensures r.Some? ==> 0 <= r.value.current < c.size
    ensures r.Some? ==> r.value.size == c.size && r.value.dotCount == c.dotCount
    ensures 0 <= c.current < c.size && index + c.size >= 0 ==>
              r.Some? && r.value.current == index % c.size
    ensures 0 <= c.current < c.size ==>
              (r.None? <==> index + c.size < 0 && (index + c.size) % c.size != 0)
    ensures OneActive(c) && r.Some? ==> OneActive(r.value)
  {
    if !(0 <= c.current < c.size) then None
    else
      var images := c.activeImages - {c.current};
      var dots := if c.current < c.dotCount then c.activeDots - {c.current} else c.activeDots;
      var next := JsRem(index + c.size, c.size);
      WrapRem(index, c.size);
      if next < 0 then None
      else
        Some(Carousel(c.size, c.dotCount, next, images + {next},
                      if next < c.dotCount then dots + {next} else dots))
  }

  /** `k` autoplay ticks, each `goTo(current + 1)`. */
  function AutoPlay(c: Carousel, k: nat): (r: Option<Carousel>)
    ensures r.Some? ==> r.value.size == c.size && r.value.dotCount == c.dotCount
    ensures k > 0 && r.Some? ==> 0 <= r.value.current < c.size
    decreases k
  {
    if k == 0 then Some(c)
    else match GoTo(c, c.current + 1)
      case None => None
      case Some(c') => AutoPlay(c', k - 1)
  }

  /** Autoplay never fails from a valid state, keeps exactly one image
      active, and after `k` ticks shows image `(current + k) mod size`. */
  lemma {:induction false} AutoPlayAdvances(c: Carousel, k: nat)
    requires OneActive(c)
    ensures AutoPlay(c, k).Some?
    ensures OneActive(AutoPlay(c, k).value)
    ensures AutoPlay(c, k).value.current == (c.current + k) % c.size
    decreases k
  {
    if k > 0 {
      var c' := GoTo(c, c.current + 1).value;
      AutoPlayAdvances(c', k - 1);
      assert c'.current == (c.current + 1) % c.size;
      ModAddMod(c.current + 1, k - 1, c.size);
    }
  }

  /** After one tick per image, autoplay is back where it started. */
  lemma AutoPlayWrapsAround(c: Carousel)
    requires OneActive(c)
    ensures AutoPlay(c, c.size) == Some(c)
  {
    AutoPlayAdvances(c, c.size);
    var r := AutoPlay(c, c.size).value;
    assert (c.current + c.size) % c.size == c.current by {
      ModShift(c.current, c.size, 1);
      ModUnique(c.current, c.size, 0, c.current);
    }
    assert r.current == c.current;
    assert r.activeImages == c.activeImages && r.activeDots == c.activeDots;
  }
}

=== FILE: chat_widget.dfy ===
/** The browser side of the chat: the floating widget's open state, its
    transcript, the input field, the disabled state shared by the input and
    the send button, and the typing indicator shown while a request is in
    flight. DOM nodes are abstracted to these fields; focus and scrolling are
    not modelled. */
module ChatWidget {
  import opened JsValues
  import JsText

  const FallbackText: string := "Sorry, something went wrong. Please try again."
  const OfflineText: string := "I seem to be offline right now. Please reach out at tacandongrey@gmail.com!"

  datatype Sender = User | Bot

  datatype Entry = Entry(text: string, sender: Sender)

  /** `disabled` stands for both `chatSend.disabled` and `chatInput.disabled`,
      which are always set together. */
  datatype Session = Session(
    open: bool,
    transcript: seq<Entry>,
    input: string,
    disabled: bool,
    typing: bool)

  /** How the relay call ends on the client: a parsed JSON response with its
      `ok` flag and optional `reply` and `error` strings, or a failure of the
      fetch or of parsing its body. */
  datatype Outcome = Response(ok: bool, reply: Option<string>, error: Option<string>) | TransportFailure

  /** The widget as the page loads it: closed, idle, with whatever transcript
      the page's markup starts with. */
  function Initial(transcript: seq<Entry>): (s: Session)
    ensures !s.open && !s.disabled && !s.typing && s.transcript == transcript
  {
    Session(false, transcript, "", false, false)
  }

  const CloseIcon: string := "fas fa-times"
  const ChatIcon: string := "fas fa-comments"

  /** The floating button's icon for an open state: a close mark while the
      window is open, a chat bubble while it is closed, so the icon tells the
      state. */
  function FabIcon(open: bool): (icon: string)
    ensures icon == CloseIcon || icon == ChatIcon
    ensures icon == CloseIcon <==> open
  {
    if open then CloseIcon else ChatIcon
  }

  /** The floating button and the close button flip the open state; nothing
      else about the session changes. */
  function Toggle(s: Session): (r: Session)
    ensures r.open == !s.open
    ensures r.(open := s.open) == s
  {
    s.(open := !s.open)
  }

  /** A click anywhere on the page: it closes an open widget when it lands
      neither in the chat window nor on the floating button. */
  function PageClick(s: Session, insideWindow: bool, insideFab: bool): (r: Session)
    ensures r.transcript == s.transcript && r.input == s.input
    ensures r.open == (s.open && (insideWindow || insideFab))
    ensures r.(open := s.open) == s
  {
    if s.open && !insideWindow && !insideFab then Toggle(s) else s
  }

  /** Every toggle swaps the floating button's icon, and two toggles bring
      the icon back. */
  lemma ToggleSwapsIcon(s: Session)
    ensures FabIcon(Toggle(s).open) != FabIcon(s.open)
    ensures FabIcon(Toggle(Toggle(s)).open) == FabIcon(s.open)
  {
  }

  /** What the synchronous part of a send produces: the new session and the
      message posted to the relay, if any. */
  datatype Begin = Begin(session: Session, request: Option<string>)

  /** The synchronous part of `sendMessage`, up to the `fetch`. The controls
      it reads are enabled: a disabled control delivers no click or key. */
  function Send(s: Session): (b: Begin)
    requires !s.disabled
    ensures JsText.Trim(s.input) == [] ==> b == Begin(s, None)
    ensures JsText.Trim(s.input) != [] ==>
              && b.request == Some(JsText.Trim(s.input))
              && b.session.transcript == s.transcript + [Entry(JsText.Trim(s.input), User)]
              && b.session.input == ""
              && b.session.disabled
              && b.session.typing
              && b.session.open == s.open
  {
    var text := JsText.Trim(s.input);
    if |text| == 0 then Begin(s, None)
    else Begin(Session(s.open, s.transcript + [Entry(text, User)], "", true, true), Some(text))
  }

  /** The text of the bot entry for an outcome: a truthy `reply` of an ok
      response, else a truthy `error`, else the generic fallback; the offline
      text when no response could be read. */
  function BotText(o: Outcome): (t: string)
    ensures o.TransportFailure? ==> t == OfflineText
    ensures o.Response? && o.ok && o.reply.Some? && o.reply.value != "" ==> t == o.reply.value
    ensures o.Response? && !(o.ok && o.reply.Some? && o.reply.value != "") ==>
              t == (if o.error.Some? && o.error.value != "" then o.error.value else FallbackText)
    ensures t != ""
  {
    match o
    case TransportFailure => OfflineText
    case Response(ok, reply, error) =>
      if ok && reply.Some? && reply.value != "" then reply.value
      else if error.Some? && error.value != "" then error.value
      else FallbackText
  }

  /** The asynchronous part of `sendMessage`, after the request settles: on
      every path the typing indicator goes, exactly one bot entry is
      appended, and the controls are enabled again. */
  function Resolve(s: Session, o: Outcome): (r: Session)
    ensures r.transcript == s.transcript + [Entry(BotText(o), Bot)]
    ensures !r.disabled && !r.typing
    ensures r.open == s.open && r.input == s.input
  {
    Session(s.open, s.transcript + [Entry(BotText(o), Bot)], s.input, false, false)
  }

  /** A completed exchange adds exactly two entries, the user's trimmed text
      and then the bot's answer, and leaves the widget idle. */
  lemma ExchangeAddsTwoEntries(s: Session, o: Outcome)
    requires !s.disabled && JsText.Trim(s.input) != []
    ensures Resolve(Send(s).session, o).transcript
              == s.transcript + [Entry(JsText.Trim(s.input), User), Entry(BotText(o), Bot)]
    ensures |Resolve(Send(s).session, o).transcript| == |s.transcript| + 2
    ensures !Resolve(Send(s).session, o).disabled && !Resolve(Send(s).session, o).typing
  {
  }

  /** What the user can do with the widget, and the settling of a request. */
  datatype Event =
    | FabClick                                  // the floating button or the close button
    | Click(insideWindow: bool, insideFab: bool) // a click bubbling to the document
    | Edit(text: string)                        // typing into the input field
    | KeyDown(key: string, shift: bool)         // a key pressed in the input field
    | SendClick                                 // the send button
    | Settle(outcome: Outcome)                  // the pending request completes

  /** A request settles only while one is in flight. */
  predicate CanOccur(s: Session, e: Event) {
    e.Settle? ==> s.typing
  }

  /** One event. Events aimed at the input field or the send button are
      dropped while they are disabled, as browsers do for disabled form
      controls. Enter without Shift sends. */
  function Step(s: Session, e: Event): (r: Session)
    requires CanOccur(s, e)
    ensures s.disabled && (e.Edit? || e.KeyDown? || e.SendClick?) ==> r == s
    ensures e.Settle? ==> r == Resolve(s, e.outcome)
    ensures (e.FabClick? || e.Click?) ==> r.transcript == s.transcript
    ensures e.FabClick? ==> r == Toggle(s)
    ensures e.Click? ==> r == PageClick(s, e.insideWindow, e.insideFab)
    ensures !s.disabled && (e.SendClick? || (e.KeyDown? && e.key == "Enter" && !e.shift)) ==>
              r == Send(s).session
    ensures e.KeyDown? && !(e.key == "Enter" && !e.shift) ==> r == s
    ensures !s.disabled && e.Edit? ==> r == s.(input := e.text)
  {
    match e
    case FabClick => Toggle(s)
    case Click(w, f) => PageClick(s, w, f)
    case Edit(text) => if s.disabled then s else s.(input := text)
    case KeyDown(key, shift) =>
      if s.disabled then s
      else if key == "Enter" && !shift then Send(s).session
      else s
    case SendClick => if s.disabled then s else Send(s).session
    case Settle(o) => Resolve(s, o)
  }

  /** An event sequence in which every settle has a request to settle. */
  predicate ValidRun(s: Session, es: seq<Event>)
    decreases |es|
  {
    |es| == 0 || (CanOccur(s, es[0]) && ValidRun(Step(s, es[0]), es[1..]))
  }

  function Run(s: Session, es: seq<Event>): Session
    requires ValidRun(s, es)
    decreases |es|
  {
    if |es| == 0 then s else Run(Step(s, es[0]), es[1..])
  }

  /** Entries alternate user, bot, user, ... */
  predicate Alternates(t: seq<Entry>) {
    forall i :: 0 <= i < |t| ==> t[i].sender == (if i % 2 == 0 then User else Bot)
  }

  /** Since `s0`, the transcript has only grown, the added entries pair each
      user message with one bot answer, a user message is unanswered exactly
      while a request is in flight, and the controls are disabled exactly
      then. */
  predicate PairedSince(s0: Session, s: Session) {
    && |s0.transcript| <= |s.transcript|
    && s.transcript[..|s0.transcript|] == s0.transcript
    && Alternates(s.transcript[|s0.transcript|..])
    && (s.typing <==> (|s.transcript| - |s0.transcript|) % 2 == 1)
    && s.disabled == s.typing
  }

  lemma AppendKeepsAlternating(t: seq<Entry>, x: Entry)
    requires Alternates(t)
    requires x.sender == (if |t| % 2 == 0 then User else Bot)
    ensures Alternates(t + [x])
  {
    forall i | 0 <= i < |t| + 1
      ensures (t + [x])[i].sender == (if i % 2 == 0 then User else Bot)
    {
      if i < |t| {
        assert (t + [x])[i] == t[i];
      }
    }
  }

  /** Appending one entry of the expected sender keeps the pairing. */
  lemma AppendKeepsPaired(s0: Session, s: Session, r: Session, x: Entry)
    requires PairedSince(s0, s)
    requires r.transcript == s.transcript + [x]
    requires x.sender == (if s.typing then Bot else User)
    requires r.typing == !s.typing && r.disabled == r.typing
    ensures PairedSince(s0, r)
  {
    var n0 := |s0.transcript|;
    assert r.transcript[..n0] == s.transcript[..n0];
    assert r.transcript[n0..] == s.transcript[n0..] + [x];
    AppendKeepsAlternating(s.transcript[n0..], x);
  }

  lemma StepKeepsPaired(s0: Session, s: Session, e: Event)
    requires PairedSince(s0, s) && CanOccur(s, e)
    ensures PairedSince(s0, Step(s, e))
  {
    var r := Step(s, e);
    if r.transcript == s.transcript {
      assert r.typing == s.typing && r.disabled == s.disabled;
    } else if e.Settle? {
      AppendKeepsPaired(s0, s, r, Entry(BotText(e.outcome), Bot));
    } else {
      AppendKeepsPaired(s0, s, r, Entry(JsText.Trim(s.input), User));
    }
  }

  /** However the user drives the widget, starting idle, every answered
      message adds exactly one user entry and one bot entry, in that order. */
  lemma {:induction false} RunKeepsPaired(s0: Session, s: Session, es: seq<Event>)
    requires PairedSince(s0, s) && ValidRun(s, es)
    ensures PairedSince(s0, Run(s, es))
    decreases |es|
  {
    if |es| > 0 {
      StepKeepsPaired(s0, s, es[0]);
      RunKeepsPaired(s0, Step(s, es[0]), es[1..]);
    }
  }

  /** From the page's initial state: when no request is in flight, the
      transcript has grown by an even number of entries. */
  lemma {:induction false} IdleAfterRunHasEvenGrowth(t0: seq<Entry>, es: seq<Event>)
    requires ValidRun(Initial(t0), es)
    ensures !Run(Initial(t0), es).typing ==>
              (|Run(Initial(t0), es).transcript| - |t0|) % 2 == 0
    ensures Run(Initial(t0), es).disabled == Run(Initial(t0), es).typing
  {
    var s0 := Initial(t0);
    assert s0.transcript[..|t0|] == t0;
    assert s0.transcript[|t0|..] == [];
    RunKeepsPaired(s0, s0, es);
  }

  /** While a request is in flight, no send attempt adds an entry or a
      request. */
  lemma SendWhileAwaitingIsIgnored(s: Session, e: Event)
    requires s.disabled
    requires e.KeyDown? || e.SendClick?
    ensures Step(s, e) == s
  {
  }
}

=== FILE: conversation.dfy ===
/** The chat client and the relay put together: the client posts the trimmed
    input as `message`, the relay answers with a status and a JSON body, and
    the client renders that body. JSON encoding is the identity on these
    values. */
module Conversation {
  import opened JsValues
  import JsText
  import Relay
  import ChatWidget

  /** The request the client's `fetch` sends for a message. */
  function ClientRequest(text: string): (r: Relay.Request)
    ensures r.httpMethod == "POST"
    ensures Relay.ValidMessage(r.message) <==> JsText.Trim(text) != []
  {
    Relay.Request("POST", Str(text))
  }

  /** How the client reads a relay response: `ok` for a 2xx status, and the
      body's `reply` or `error` field. */
  function Received(r: Relay.Response): (o: ChatWidget.Outcome)
    ensures o.Response?
    ensures o.ok <==> 200 <= r.status <= 299
    ensures o.reply.Some? <==> r.body.Reply?
    ensures o.error.Some? <==> r.body.Error?
    ensures r.body.Reply? ==> o.reply == Some(r.body.reply)
    ensures r.body.Error? ==> o.error == Some(r.body.error)
  {
    ChatWidget.Response(
      200 <= r.status <= 299,
      if r.body.Reply? then Some(r.body.reply) else None,
      if r.body.Error? then Some(r.body.error) else None)
  }

  /** One full exchange: the widget sends its input, the relay handles the
      request, and the widget renders the relay's response. */
  function Exchange(s: ChatWidget.Session, systemPrompt: string, apiKey: Option<string>, upstream: Relay.UpstreamOutcome): (r: ChatWidget.Session)
    requires !s.disabled
    ensures JsText.Trim(s.input) == [] ==> r == s
    ensures |r.transcript| == |s.transcript| + (if JsText.Trim(s.input) == [] then 0 else 2)
    ensures r.transcript[..|s.transcript|] == s.transcript
    ensures !r.disabled && r.open == s.open
    ensures JsText.Trim(s.input) != [] ==> !r.typing && r.input == ""
  {
    var b := ChatWidget.Send(s);
    match b.request
    case None => b.session
    case Some(text) =>
      var x := Relay.Handle(systemPrompt, ClientRequest(text), apiKey, upstream);
      ChatWidget.Resolve(b.session, Received(x.response))
  }

  /** The client never provokes the relay's method or message errors: it
      posts, and only a message with text in it. */
  lemma ClientRequestsPassValidation(s: ChatWidget.Session, systemPrompt: string, apiKey: Option<string>, upstream: Relay.UpstreamOutcome)
    requires !s.disabled && ChatWidget.Send(s).request.Some?
    ensures Relay.ValidMessage(Str(ChatWidget.Send(s).request.value))
    ensures Relay.Handle(systemPrompt, ClientRequest(ChatWidget.Send(s).request.value), apiKey, upstream).response.status
              !in {Relay.StatusMethodNotAllowed, Relay.StatusBadRequest}
  {
    var text := JsText.Trim(s.input);
    JsText.TrimIdempotent(s.input);
    assert JsText.Trim(text) == text;
  }

  /** The message forwarded upstream is exactly what the user typed, trimmed:
      the relay's own trim changes nothing more. */
  lemma ForwardedMessageIsTrimmedInput(s: ChatWidget.Session, systemPrompt: string, apiKey: Option<string>, upstream: Relay.UpstreamOutcome)
    requires !s.disabled && JsText.Trim(s.input) != [] && Relay.Configured(apiKey)
    ensures Relay.Handle(systemPrompt, ClientRequest(JsText.Trim(s.input)), apiKey, upstream).call.Some?
    ensures Relay.Handle(systemPrompt, ClientRequest(JsText.Trim(s.input)), apiKey, upstream).call.value.messages[1]
              == Relay.ChatMessage(Relay.User, JsText.Trim(s.input))
  {
    JsText.TrimIdempotent(s.input);
  }

  /** What the user reads after a full exchange with a non-empty input: the
      trimmed reply when the upstream gave text that is not all whitespace,
      the generic fallback when it gave whitespace only, and otherwise the
      relay's error text. */
  lemma ExchangeOutcome(s: ChatWidget.Session, systemPrompt: string, apiKey: Option<string>, upstream: Relay.UpstreamOutcome)
    requires !s.disabled && JsText.Trim(s.input) != []
    ensures var r := Exchange(s, systemPrompt, apiKey, upstream);
            var x := Relay.Handle(systemPrompt, ClientRequest(JsText.Trim(s.input)), apiKey, upstream);
            && |r.transcript| == |s.transcript| + 2
            && r.transcript[|s.transcript|] == ChatWidget.Entry(JsText.Trim(s.input), ChatWidget.User)
            && r.transcript[|s.transcript| + 1].sender == ChatWidget.Bot
            && (x.response.body.Reply? && x.response.body.reply != "" ==>
                  r.transcript[|s.transcript| + 1].text == x.response.body.reply)
            && (x.response.body.Reply? && x.response.body.reply == "" ==>
                  r.transcript[|s.transcript| + 1].text == ChatWidget.FallbackText)
            && (x.response.body.Error? ==>
                  r.transcript[|s.transcript| + 1].text == x.response.body.error)
            && !r.disabled && !r.typing
  {
    var text := JsText.Trim(s.input);
    var b := ChatWidget.Send(s);
    var x := Relay.Handle(systemPrompt, ClientRequest(text), apiKey, upstream);
    var r := ChatWidget.Resolve(b.session, Received(x.response));
    assert Exchange(s, systemPrompt, apiKey, upstream) == r;
    assert r.transcript == s.transcript + [ChatWidget.Entry(text, ChatWidget.User), ChatWidget.Entry(ChatWidget.BotText(Received(x.response)), ChatWidget.Bot)];
    if x.response.body.Error? {
      assert x.response.body.error in Relay.ErrorTexts;
    }
  }

  /** A whitespace-only upstream reply reaches the user as the generic
      fallback text, although the relay answered with status 200. */
  lemma WhitespaceReplyShowsFallback(s: ChatWidget.Session, systemPrompt: string, apiKey: Option<string>, content: string)
    requires !s.disabled && JsText.Trim(s.input) != [] && Relay.Configured(apiKey)
    requires content != "" && JsText.AllWhitespace(content)
    ensures var r := Exchange(s, systemPrompt, apiKey, Relay.Ok(Str(content)));
            r.transcript == s.transcript + [ChatWidget.Entry(JsText.Trim(s.input), ChatWidget.User),
                                            ChatWidget.Entry(ChatWidget.FallbackText, ChatWidget.Bot)]
  {
    JsText.TrimIdempotent(s.input);
  }
}

=== FILE: gallery.dfy ===
/** The screenshot lightbox: whether it is open, the gallery it shows, and
    the index of the current picture. The slide animation between pictures
    is not modelled; the picture shown is the one at the current index. */
module Gallery {
  import opened JsValues
  import JsText

  datatype Item = Item(src: string, caption: string)

  datatype Lightbox = Lightbox(open: bool, items: seq<Item>, index: int)

  /** What the lightbox shows around the picture: its caption, the counter
      text, and whether the previous/next arrows are displayed. */
  datatype Meta = Meta(caption: string, counter: string, arrows: bool)

  const SwipeThreshold: int := 50

  /** The page's state before any gallery is opened. */
  const Closed: Lightbox := Lightbox(false, [], 0)

  /** The index points at a picture. */
  predicate InRange(lb: Lightbox) {
    0 <= lb.index < |lb.items|
  }

  /** The picture the lightbox frame renders, if any: an empty gallery
      renders nothing. */
  function Frame(lb: Lightbox): (r: Option<Item>)
    ensures r.Some? <==> InRange(lb)
    ensures r.Some? ==> r.value == lb.items[lb.index]
  {
    if InRange(lb) then Some(lb.items[lb.index]) else None
  }

  /** `openGallery(key, startIndex)`: the gallery registered under `key` (none
      for an unknown key), opened at the start index clamped to
      `max(0, min(start, length - 1))`. */
  function OpenGallery(galleries: map<string, seq<Item>>, key: string, start: int): (r: Lightbox)
    ensures r.open
    ensures r.items == (if key in galleries then galleries[key] else [])
    ensures |r.items| > 0 ==> InRange(r)
    ensures |r.items| == 0 ==> r.index == 0
    ensures 0 <= start < |r.items| ==> r.index == start
    ensures start < 0 ==> r.index == 0
    ensures |r.items| > 0 && start >= |r.items| ==> r.index == |r.items| - 1
  {
    var items := if key in galleries then galleries[key] else [];
    Lightbox(true, items, Max(0, Min(start, |items| - 1)))
  }

  function Min(a: int, b: int): int {
    if a <= b then a else b
  }

  function Max(a: int, b: int): int {
    if a >= b then a else b
  }

  /** Opening a gallery at an index it has shows that picture. */
  lemma OpenGalleryShowsStart(galleries: map<string, seq<Item>>, key: string, start: int)
    requires key in galleries && 0 <= start < |galleries[key]|
    ensures Frame(OpenGallery(galleries, key, start)) == Some(galleries[key][start])
  {
  }

  /** `openLightbox(src, caption)`: a single picture as a one-item gallery. */
  function OpenLightbox(src: string, caption: string): (r: Lightbox)
    ensures r.open && InRange(r) && Frame(r) == Some(Item(src, caption))
    ensures |r.items| == 1
  {
    Lightbox(true, [Item(src, caption)], 0)
  }

  function CloseLightbox(lb: Lightbox): (r: Lightbox)
    ensures !r.open && r.items == lb.items && r.index == lb.index
  {
    lb.(open := false)
  }

  /** `updateLightboxMeta()`: the counter reads "position / total" and the
      arrows are displayed exactly when the gallery has more than one
      picture. */
  function UpdateMeta(lb: Lightbox): (m: Meta)
    requires InRange(lb)
    ensures m.caption == lb.items[lb.index].caption
    ensures m.arrows <==> |lb.items| > 1
    ensures m.counter == "" <==> |lb.items| <= 1
    ensures |lb.items| > 1 ==>
              m.counter == JsText.Decimal(lb.index + 1) + " / " + JsText.Decimal(|lb.items|)
  {
    var total := |lb.items|;
    if total > 1 then
      Meta(lb.items[lb.index].caption,
           JsText.Decimal(lb.index + 1) + " / " + JsText.Decimal(total), true)
    else
      Meta(lb.items[lb.index].caption, "", false)
  }

  /** `galleryNav(direction)`: nothing happens in a gallery of at most one
      picture; otherwise the index moves by `direction`, wrapping around with
      JavaScript's truncating remainder. */
  function Nav(lb: Lightbox, direction: int): (r: Lightbox)
    ensures r.open == lb.open && r.items == lb.items
    ensures |lb.items| <= 1 ==> r == lb
    ensures |lb.items| > 1 && lb.index + direction + |lb.items| >= 0 ==>
              InRange(r) && r.index == (lb.index + direction) % |lb.items|
  {
    var total := |lb.items|;
    if total <= 1 then lb
    else
      WrapRem(lb.index + direction, total);
      lb.(index := JsRem(lb.index + direction + total, total))
  }

  /** Splitting "a / b" back into its two numerals: a digit never equals
      the separator's first character. */
  lemma SplitCounter(a: string, b: string, c: string, d: string)
    requires JsText.AllDigits(a) && JsText.AllDigits(b) && JsText.AllDigits(c) && JsText.AllDigits(d)
    requires a + " / " + b == c + " / " + d
    ensures a == c && b == d
  {
    var x := a + " / " + b;
    if |a| < |c| {
      SeparatorAt(a, b);
      assert false;
    } else if |c| < |a| {
      SeparatorAt(c, d);
      assert false;
    }
    assert a == x[..|a|] == c;
    assert b == x[|a| + 3..] == d;
  }

  lemma SeparatorAt(a: string, b: string)
    ensures (a + " / " + b)[|a|] == ' '
  {
  }

  /** The counter text identifies the position and the total: reading it
      back gives both. */
  lemma CounterIdentifiesPosition(lb1: Lightbox, lb2: Lightbox)
    requires InRange(lb1) && InRange(lb2) && |lb1.items| > 1 && |lb2.items| > 1
    requires UpdateMeta(lb1).counter == UpdateMeta(lb2).counter
    ensures lb1.index == lb2.index && |lb1.items| == |lb2.items|
  {
    SplitCounter(JsText.Decimal(lb1.index + 1), JsText.Decimal(|lb1.items|),
                 JsText.Decimal(lb2.index + 1), JsText.Decimal(|lb2.items|));
    JsText.DecimalInjective(lb1.index + 1, lb2.index + 1);
    JsText.DecimalInjective(|lb1.items|, |lb2.items|);
  }

  /** Stepping forward then back (or back then forward) returns to the same
      picture. */
  lemma NavRoundTrip(lb: Lightbox)
    requires InRange(lb)
    ensures Nav(Nav(lb, 1), -1) == lb
    ensures Nav(Nav(lb, -1), 1) == lb
  {
    var n := |lb.items|;
    if n > 1 {
      ModAddMod(lb.index + 1, -1, n);
      ModUnique(lb.index, n, 0, lb.index);
      ModAddMod(lb.index - 1, 1, n);
    }
  }

  /** The keyboard handler: nothing unless the lightbox is open; Escape
      closes it, the arrow keys navigate. */
  function OnKey(lb: Lightbox, key: string): (r: Lightbox)
    ensures !lb.open ==> r == lb
    ensures r.items == lb.items
    ensures lb.open && key == "Escape" ==> !r.open && r.index == lb.index
    ensures lb.open && key == "ArrowLeft" ==> r == Nav(lb, -1)
    ensures lb.open && key == "ArrowRight" ==> r == Nav(lb, 1)
    ensures key !in {"Escape", "ArrowLeft", "ArrowRight"} ==> r == lb
  {
    if !lb.open then lb
    else
      var r1 := if key == "Escape" then CloseLightbox(lb) else lb;
      var r2 := if key == "ArrowLeft" then Nav(r1, -1) else r1;
      if key == "ArrowRight" then Nav(r2, 1) else r2
  }

  /** The touch handler: a horizontal swipe longer than the threshold
      navigates, leftwards to the next picture and rightwards to the
      previous one. It does not look at whether the lightbox is open. */
  function OnSwipe(lb: Lightbox, dx: int): (r: Lightbox)
    ensures -SwipeThreshold <= dx <= SwipeThreshold ==> r == lb
    ensures dx < -SwipeThreshold ==> r == Nav(lb, 1)
    ensures dx > SwipeThreshold ==> r == Nav(lb, -1)
  {
    if Abs(dx) > SwipeThreshold then Nav(lb, if dx < 0 then 1 else -1) else lb
  }

  function Abs(x: int): int {
    if x < 0 then -x else x
  }

  /** A key press or a swipe on the lightbox. */
  datatype Gesture = Key(key: string) | Swipe(dx: int)

  function Handle(lb: Lightbox, g: Gesture): Lightbox {
    match g
    case Key(k) => OnKey(lb, k)
    case Swipe(dx) => OnSwipe(lb, dx)
  }

  function HandleAll(lb: Lightbox, gs: seq<Gesture>): Lightbox
    decreases |gs|
  {
    if |gs| == 0 then lb else HandleAll(Handle(lb, gs[0]), gs[1..])
  }

  /** The touch handler does not look at whether the lightbox is open: after
      a gallery of several pictures is closed, a long swipe still moves its
      index, and the lightbox stays closed. */
  lemma SwipeNavigatesWhileClosed(lb: Lightbox, dx: int)
    requires !lb.open && InRange(lb) && |lb.items| > 1
    requires Abs(dx) > SwipeThreshold
    ensures !OnSwipe(lb, dx).open
    ensures OnSwipe(lb, dx).index != lb.index
    ensures dx < 0 ==> OnSwipe(lb, dx).index == (lb.index + 1) % |lb.items|
    ensures dx > 0 ==> OnSwipe(lb, dx).index == (lb.index - 1) % |lb.items|
  {
    var n := |lb.items|;
    ModUnique(lb.index, n, 0, lb.index);
    if dx < 0 {
      ModAddMod(lb.index, 1, n);
    } else {
      ModAddMod(lb.index, -1, n);
      ModShift(lb.index - 1, n, 1);
    }
  }

  /** Before any gallery is opened, no key or swipe changes anything. */
  lemma {:induction false} ClosedIgnoresGestures(gs: seq<Gesture>)
    ensures HandleAll(Closed, gs) == Closed
    decreases |gs|
  {
    if |gs| > 0 {
      assert Handle(Closed, gs[0]) == Closed;
      ClosedIgnoresGestures(gs[1..]);
    }
  }

  /** Whatever keys and swipes follow, the gallery stays the same and the
      index stays on one of its pictures. */
  lemma {:induction false} GesturesKeepInRange(lb: Lightbox, gs: seq<Gesture>)
    requires InRange(lb)
    ensures InRange(HandleAll(lb, gs))
    ensures HandleAll(lb, gs).items == lb.items
    decreases |gs|
  {
    if |gs| > 0 {
      GesturesKeepInRange(Handle(lb, gs[0]), gs[1..]);
    }
  }
}

=== FILE: js_text.dfy ===
/** The string operations the site relies on: `String.prototype.trim`,
    `substring(0, k)`, and the decimal rendering of a counter in a template
    literal. Strings are sequences of code points; the site's texts are ASCII,
    where code points and JavaScript's UTF-16 code units coincide. */
module JsText {

  /** The characters `trim` removes, ECMAScript's WhiteSpace and
      LineTerminator productions: tab, line feed, vertical tab, form feed,
      carriage return, space, no-break space, the byte-order mark, the line
      and paragraph separators, and the other space separators of Unicode
      category Zs. */
  predicate IsWhitespace(c: char) {
    || '\t' <= c <= '\r'
    || c == ' '
    || c == '\U{A0}'
    || c == '\U{1680}'
    || '\U{2000}' <= c <= '\U{200A}'
    || c == '\U{2028}' || c == '\U{2029}'
    || c == '\U{202F}' || c == '\U{205F}'
    || c == '\U{3000}'
    || c == '\U{FEFF}'
  }

  predicate AllWhitespace(s: string) {
    forall i :: 0 <= i < |s| ==> IsWhitespace(s[i])
  }

  /** The end of the run of whitespace that starts at index `i`. */
  function SkipForward(s: string, i: nat): (k: nat)
    requires i <= |s|
    ensures i <= k <= |s|
    ensures forall j :: i <= j < k ==> IsWhitespace(s[j])
    ensures k == |s| || !IsWhitespace(s[k])
    decreases |s| - i
  {
    if i < |s| && IsWhitespace(s[i]) then SkipForward(s, i + 1) else i
  }

  /** The start of the run of whitespace that ends just before index `j`,
      not going below `lo`. */
  function SkipBackward(s: string, lo: nat, j: nat): (k: nat)
    requires lo <= j <= |s|
    ensures lo <= k <= j
    ensures forall m :: k <= m < j ==> IsWhitespace(s[m])
    ensures k == lo || !IsWhitespace(s[k - 1])
  {
    if j > lo && IsWhitespace(s[j - 1]) then SkipBackward(s, lo, j - 1) else j
  }

  /** Where the text `s.trim()` keeps starts. */
  function TrimStart(s: string): nat {
    SkipForward(s, 0)
  }

  /** Where the text `s.trim()` keeps ends. */
  function TrimEnd(s: string): nat {
    SkipBackward(s, TrimStart(s), |s|)
  }

  /** `s.trim()`: `s` without its leading and trailing whitespace. Everything
      outside the kept slice is whitespace, and the kept slice neither starts
      nor ends with whitespace, so it is the longest such slice. */
  function Trim(s: string): (r: string)
    ensures 0 <= TrimStart(s) <= TrimEnd(s) <= |s|
    ensures r == s[TrimStart(s)..TrimEnd(s)]
    ensures forall i :: 0 <= i < TrimStart(s) ==> IsWhitespace(s[i])
    ensures forall i :: TrimEnd(s) <= i < |s| ==> IsWhitespace(s[i])
    ensures r == [] || (!IsWhitespace(r[0]) && !IsWhitespace(r[|r| - 1]))
    ensures r == [] <==> AllWhitespace(s)
  {
    s[TrimStart(s)..TrimEnd(s)]
  }

  /** Trimming twice is trimming once. */
  lemma TrimIdempotent(s: string)
    ensures Trim(Trim(s)) == Trim(s)
  {
    var r := Trim(s);
    if r != [] {
      assert TrimStart(r) == 0;
      assert TrimEnd(r) == |r|;
    }
  }

  /** `s.substring(0, end)`: JavaScript clamps `end` into `[0, |s|]`. */
  function Substring0(s: string, end: int): (r: string)
    ensures |r| == if end <= 0 then 0 else if end >= |s| then |s| else end
    ensures r == s[..|r|]
  {
    if end <= 0 then [] else if end >= |s| then s else s[..end]
  }

  predicate IsDigit(c: char) {
    '0' <= c <= '9'
  }

  predicate AllDigits(s: string) {
    forall i :: 0 <= i < |s| ==> IsDigit(s[i])
  }

  function DigitChar(d: nat): (c: char)
    requires d < 10
    ensures IsDigit(c) && c as int - '0' as int == d
  {
    ('0' as int + d) as char
  }

  /** The decimal numeral a template literal produces for a natural number:
      at least one digit, no leading zero. */
  function Decimal(n: nat): (r: string)
    ensures |r| >= 1 && AllDigits(r)
    ensures r[0] == '0' ==> n == 0
  {
    if n < 10 then [DigitChar(n)] else Decimal(n / 10) + [DigitChar(n % 10)]
  }

  /** The number a string of decimal digits denotes: the inverse of `Decimal`. */
  function DigitsValue(s: string): nat
    requires AllDigits(s)
  {
    if s == [] then 0
    else DigitsValue(s[..|s| - 1]) * 10 + (s[|s| - 1] as int - '0' as int)
  }

  /** Reading back a rendered number gives the number. */
  lemma {:induction false} DecimalRoundTrip(n: nat)
    ensures DigitsValue(Decimal(n)) == n
  {
    if n >= 10 {
      DecimalRoundTrip(n / 10);
      var d := Decimal(n / 10);
      var r := Decimal(n);
      assert r[..|r| - 1] == d;
    }
  }

  /** Distinct numbers render as distinct numerals. */
  lemma DecimalInjective(m: nat, n: nat)
    ensures Decimal(m) == Decimal(n) ==> m == n
  {
    DecimalRoundTrip(m);
    DecimalRoundTrip(n);
  }
}

=== FILE: js_values.dfy ===
/** Values as the site's JavaScript sees them, and the one piece of JavaScript
    arithmetic whose meaning differs from Dafny's: the truncating remainder. */
module JsValues {

  /** An optional value: a missing key, an unset environment variable. */
  datatype Option<+T> = None | Some(value: T)

  /** A field read from parsed JSON: `undefined` when absent, a string, or a
      value of some other type (number, object, null, ...) of which only its
      truthiness matters here. */
  datatype JsValue = Undefined | Str(s: string) | Other(truthy: bool)

  /** JavaScript's `!!v`: the empty string and `undefined` are falsy. */
  predicate Truthy(v: JsValue) {
    match v
    case Undefined => false
    case Str(s) => s != ""
    case Other(t) => t
  }

  /** JavaScript's `a % b` on integers, for a positive divisor: the remainder
      truncates toward zero, so it takes the sign of `a` (Dafny's `%` is
      Euclidean and never negative). A remainder of -0 reads as 0. */
  function JsRem(a: int, b: int): (r: int)
    requires b > 0
    ensures -b < r < b
    ensures a >= 0 ==> 0 <= r
    ensures a <= 0 ==> r <= 0
    ensures a >= 0 ==> r == a % b
    ensures (a - r) % b == 0
  {
    if a >= 0 then
      ModUnique(a - a % b, b, a / b, 0);
      a % b
    else
      ModUnique(a + (-a) % b, b, -((-a) / b), 0);
      -((-a) % b)
  }

  /** What the wrap-around idiom `(i + n) % n` gives under JavaScript's
      remainder: Dafny's `i % n` when `i + n` is not negative, and a negative
      number exactly when `i + n` is negative and not a multiple of `n`. */
  lemma WrapRem(i: int, n: int)
    requires n > 0
    ensures i + n >= 0 ==> JsRem(i + n, n) == i % n
    ensures JsRem(i + n, n) < 0 <==> i + n < 0 && (i + n) % n != 0
  {
    ModShift(i, n, 1);
    ModNegZero(i + n, n);
  }

  lemma MulAtLeast(d: int, n: int)
    requires d >= 1 && n > 0
    ensures d * n >= n
  {
  }

  /** The remainder is determined by any quotient-remainder decomposition. */
  lemma ModUnique(a: int, n: int, q: int, r: int)
    requires n > 0 && 0 <= r < n && a == q * n + r
    ensures a % n == r
  {
    var q0 := a / n;
    var r0 := a % n;
    assert a == q0 * n + r0;
    assert (q - q0) * n == r0 - r;
    if q > q0 {
      MulAtLeast(q - q0, n);
    } else if q < q0 {
      MulAtLeast(q0 - q, n);
    }
  }

  lemma ModShift(a: int, n: int, k: int)
    requires n > 0
    ensures (a + k * n) % n == a % n
  {
    ModUnique(a + k * n, n, a / n + k, a % n);
  }

  lemma ModAddMod(a: int, b: int, n: int)
    requires n > 0
    ensures (a % n + b) % n == (a + b) % n
  {
    ModShift(a % n + b, n, a / n);
    assert a % n + b + (a / n) * n == a + b;
  }

  lemma ModNegZero(a: int, n: int)
    requires n > 0
    ensures a % n == 0 <==> (-a) % n == 0
  {
    if a % n == 0 {
      ModUnique(-a, n, -(a / n), 0);
    }
    if (-a) % n == 0 {
      ModUnique(a, n, -((-a) / n), 0);
    }
  }
}

=== FILE: relay.dfy ===
/** The serverless chat relay: one HTTP request in, at most one call to the
    upstream chat-completion service, exactly one `(status, body)` out.

    The request arrives already abstracted: its method, and the `message`
    field of its JSON body as a `JsValue` (`Undefined` when the body or the
    field is missing). The credential is the optional environment value.
    The upstream call is not performed: its outcome is a parameter, used only
    when the relay decides to make the call, and the call it would make is
    part of the result. */
module Relay {
  import opened JsValues
  import JsText

  const UpstreamUrl: string := "https://api.groq.com/openai/v1/chat/completions"
  const UpstreamModel: string := "llama-3.3-70b-versatile"
  const MaxTokens: nat := 512

  /** Status codes, with their section of RFC 9110. */
  const StatusOk: int := 200                  // section 15.3.1
  const StatusBadRequest: int := 400          // section 15.5.1
  const StatusMethodNotAllowed: int := 405    // section 15.5.6
  const StatusInternalError: int := 500       // section 15.6.1
  const StatusBadGateway: int := 502          // section 15.6.3

  const MethodNotAllowedText: string := "Method not allowed."
  const MissingMessageText: string := "Please provide a message."
  const NotConfiguredText: string := "AI service is not configured yet."
  const UpstreamErrorText: string := "AI service returned an error. Please try again."
  const NoReplyText: string := "No response from AI. Please try again."
  const InternalErrorText: string := "Internal server error. Please try again."

  /** Every error text the relay can send: all fixed. */
  const ErrorTexts: set<string> :=
    {MethodNotAllowedText, MissingMessageText, NotConfiguredText,
     UpstreamErrorText, NoReplyText, InternalErrorText}

  datatype Request = Request(httpMethod: string, message: JsValue)

  datatype Role = System | User
  datatype ChatMessage = ChatMessage(role: Role, content: string)

  /** The chat-completion call the relay makes. Sampling temperature is
      omitted. */
  datatype UpstreamCall = UpstreamCall(
    url: string,
    authorization: string,
    model: string,
    messages: seq<ChatMessage>,
    maxTokens: nat)

  /** How the upstream call ends: an exception (network failure, or a body
      that is not JSON), a non-success status with some error body, or a
      success whose first choice's message content is `content`. */
  datatype UpstreamOutcome = Throws | NotOk(errorBody: string) | Ok(content: JsValue)

  /** A JSON body carrying exactly one of `reply` and `error`. */
  datatype Body = Reply(reply: string) | Error(error: string)

  datatype Response = Response(status: int, body: Body)

  /** What one request produces: the upstream call made, if any, and the
      response sent. */
  datatype Exchange = Exchange(call: Option<UpstreamCall>, response: Response)

  /** The message check: a truthy string that is not all whitespace. */
  predicate ValidMessage(m: JsValue) {
    Truthy(m) && m.Str? && |JsText.Trim(m.s)| != 0
  }

  /** The credential check: set and not empty. */
  predicate Configured(apiKey: Option<string>) {
    apiKey.Some? && apiKey.value != ""
  }

  /** The call forwarded upstream: the system prompt, then the trimmed user
      message, with the credential as a bearer token. */
  function Forward(systemPrompt: string, message: string, apiKey: string): (c: UpstreamCall)
    ensures |c.messages| == 2
    ensures c.messages[0].role == System && c.messages[0].content == systemPrompt
    ensures c.messages[1].role == User && c.messages[1].content == JsText.Trim(message)
    ensures c.authorization == "Bearer " + apiKey
    ensures c.url == UpstreamUrl && c.model == UpstreamModel && c.maxTokens == MaxTokens
  {
    UpstreamCall(
      UpstreamUrl,
      "Bearer " + apiKey,
      UpstreamModel,
      [ChatMessage(System, systemPrompt), ChatMessage(User, JsText.Trim(message))],
      MaxTokens)
  }

  /** The response for an upstream outcome. A truthy content that is not a
      string makes `reply.trim()` throw, which the handler's catch turns into
      an internal error. The upstream error body never reaches the response. */
  function MapUpstream(outcome: UpstreamOutcome): (r: Response)
    ensures outcome.Throws? ==> r == Response(StatusInternalError, Error(InternalErrorText))
    ensures outcome.NotOk? ==> r == Response(StatusBadGateway, Error(UpstreamErrorText))
    ensures outcome.Ok? && !Truthy(outcome.content) ==> r == Response(StatusBadGateway, Error(NoReplyText))
    ensures outcome.Ok? && outcome.content.Str? && outcome.content.s != "" ==>
              r == Response(StatusOk, Reply(JsText.Trim(outcome.content.s)))
    ensures outcome.Ok? && outcome.content.Other? && outcome.content.truthy ==>
              r == Response(StatusInternalError, Error(InternalErrorText))
  {
    match outcome
    case Throws => Response(StatusInternalError, Error(InternalErrorText))
    case NotOk(_) => Response(StatusBadGateway, Error(UpstreamErrorText))
    case Ok(content) =>
      if !Truthy(content) then Response(StatusBadGateway, Error(NoReplyText))
      else if content.Str? then Response(StatusOk, Reply(JsText.Trim(content.s)))
      else Response(StatusInternalError, Error(InternalErrorText))
  }

  /** The request handler. The checks run in a fixed order (method, message,
      credential, upstream) and the first that fails decides the response;
      the upstream call is made exactly when the first three pass. */
  function Handle(systemPrompt: string, req: Request, apiKey: Option<string>, upstream: UpstreamOutcome): (x: Exchange)
    ensures x.response.status in {StatusOk, StatusBadRequest, StatusMethodNotAllowed, StatusInternalError, StatusBadGateway}
    ensures x.response.status == StatusOk <==> x.response.body.Reply?
    ensures x.response.body.Error? ==> x.response.body.error in ErrorTexts
    ensures x.response.body.Reply? ==>
              upstream.Ok? && upstream.content.Str? && x.response.body.reply == JsText.Trim(upstream.content.s)
    ensures x.call.Some? <==> req.httpMethod == "POST" && ValidMessage(req.message) && Configured(apiKey)
    ensures x.call.Some? ==> x.call.value == Forward(systemPrompt, req.message.s, apiKey.value)
    ensures x.call.Some? ==> x.response == MapUpstream(upstream)
    ensures x.response.status == StatusMethodNotAllowed <==> req.httpMethod != "POST"
    ensures x.response.status == StatusBadRequest <==> req.httpMethod == "POST" && !ValidMessage(req.message)
    ensures req.httpMethod != "POST" ==> x == Exchange(None, Response(StatusMethodNotAllowed, Error(MethodNotAllowedText)))
    ensures req.httpMethod == "POST" && !ValidMessage(req.message) ==>
              x == Exchange(None, Response(StatusBadRequest, Error(MissingMessageText)))
    ensures req.httpMethod == "POST" && ValidMessage(req.message) && !Configured(apiKey) ==>
              x == Exchange(None, Response(StatusInternalError, Error(NotConfiguredText)))
  {
    if req.httpMethod != "POST" then
      Exchange(None, Response(StatusMethodNotAllowed, Error(MethodNotAllowedText)))
    else if !ValidMessage(req.message) then
      Exchange(None, Response(StatusBadRequest, Error(MissingMessageText)))
    else if !Configured(apiKey) then
      Exchange(None, Response(StatusInternalError, Error(NotConfiguredText)))
    else
      Exchange(Some(Forward(systemPrompt, req.message.s, apiKey.value)), MapUpstream(upstream))
  }

  /** A message is accepted exactly when it is a string with a character
      that is not whitespace. */
  lemma ValidMessageMeansText(m: JsValue)
    ensures ValidMessage(m) <==> m.Str? && !JsText.AllWhitespace(m.s)
  {
  }

  /** The response depends on the upstream outcome only when the call is
      made: a request rejected before the call gets the same response
      whatever the upstream would have done. */
  lemma RejectedBeforeCall(systemPrompt: string, req: Request, apiKey: Option<string>, u1: UpstreamOutcome, u2: UpstreamOutcome)
    requires Handle(systemPrompt, req, apiKey, u1).call.None?
    ensures Handle(systemPrompt, req, apiKey, u2) == Handle(systemPrompt, req, apiKey, u1)
  {
  }

  /** Nothing of an upstream error body leaks: two failing upstream calls
      with different error bodies produce the same response. */
  lemma UpstreamErrorBodyNeverLeaks(systemPrompt: string, req: Request, apiKey: Option<string>, e1: string, e2: string)
    ensures Handle(systemPrompt, req, apiKey, NotOk(e1)) == Handle(systemPrompt, req, apiKey, NotOk(e2))
  {
  }

  /** A reply that is whitespace only passes the emptiness check, which runs
      before trimming, and is sent as an empty `reply` with status 200. */
  lemma WhitespaceReplyIsEmptySuccess(systemPrompt: string, req: Request, apiKey: Option<string>, content: string)
    requires req.httpMethod == "POST" && ValidMessage(req.message) && Configured(apiKey)
    requires content != "" && JsText.AllWhitespace(content)
    ensures Handle(systemPrompt, req, apiKey, Ok(Str(content))).response == Response(StatusOk, Reply(""))
  {
  }
}

=== FILE: theme.dfy ===
/** The dark/light theme: the class list of the root element, the toggle
    button's icon, and the value saved under the `theme` key of local
    storage. */
module Theme {
  import opened JsValues

  const DarkClass: string := "dark"
  const LightClass: string := "light"
  const SunIcon: string := "fas fa-sun"
  const MoonIcon: string := "fas fa-moon"

  datatype Page = Page(classes: set<string>, icon: string, saved: Option<string>)

  predicate IsDark(p: Page) {
    DarkClass in p.classes
  }

  /** Exactly one of the two theme classes is set, and the icon offers the
      other theme. */
  predicate Consistent(p: Page) {
    && (DarkClass in p.classes <==> LightClass !in p.classes)
    && p.icon == (if IsDark(p) then SunIcon else MoonIcon)
  }

  /** `applyTheme(isDark)`: sets one theme class, removes the other, and
      picks the icon; other classes and the saved value are untouched. */
  function ApplyTheme(p: Page, isDark: bool): (r: Page)
    ensures Consistent(r)
    ensures IsDark(r) == isDark
    ensures r.classes - {DarkClass, LightClass} == p.classes - {DarkClass, LightClass}
    ensures r.saved == p.saved
  {
    if isDark then Page(p.classes + {DarkClass} - {LightClass}, SunIcon, p.saved)
    else Page(p.classes + {LightClass} - {DarkClass}, MoonIcon, p.saved)
  }

  /** Page load: dark unless the saved value is exactly "light". */
  function Load(p: Page): (r: Page)
    ensures Consistent(r) && r.saved == p.saved
    ensures !IsDark(r) <==> p.saved == Some(LightClass)
    ensures r.classes - {DarkClass, LightClass} == p.classes - {DarkClass, LightClass}
  {
    ApplyTheme(p, p.saved != Some(LightClass))
  }

  /** The name stored for a theme. */
  function ThemeName(isDark: bool): string {
    if isDark then DarkClass else LightClass
  }

  /** The toggle button: switches to the other theme and saves its name. */
  function Toggle(p: Page): (r: Page)
    ensures Consistent(r)
    ensures IsDark(r) == !IsDark(p)
    ensures r.saved == Some(ThemeName(IsDark(r)))
    ensures r.classes - {DarkClass, LightClass} == p.classes - {DarkClass, LightClass}
  {
    var isDark := IsDark(p);
    var r := ApplyTheme(p, !isDark);
    r.(saved := Some(if isDark then LightClass else DarkClass))
  }

  /** Toggling twice restores a consistent page's classes and icon, and
      leaves the current theme's name saved. */
  lemma ToggleTwice(p: Page)
    requires Consistent(p)
    ensures Toggle(Toggle(p)).classes == p.classes
    ensures Toggle(Toggle(p)).icon == p.icon
    ensures Toggle(Toggle(p)).saved == Some(ThemeName(IsDark(p)))
  {
    var r := Toggle(Toggle(p));
    assert r.classes - {DarkClass, LightClass} == p.classes - {DarkClass, LightClass};
    assert DarkClass in r.classes <==> DarkClass in p.classes;
    assert LightClass in r.classes <==> LightClass in p.classes;
    forall x | x in p.classes ensures x in r.classes {
      if x != DarkClass && x != LightClass {
        assert x in p.classes - {DarkClass, LightClass};
      }
    }
    forall x | x in r.classes ensures x in p.classes {
      if x != DarkClass && x != LightClass {
        assert x in r.classes - {DarkClass, LightClass};
      }
    }
  }

  /** The saved choice survives a reload: loading after a toggle shows the
      theme the toggle chose. */
  lemma ReloadKeepsToggledTheme(p: Page)
    ensures IsDark(Load(Toggle(p))) == IsDark(Toggle(p))
  {
  }
}

=== FILE: typed_text.dfy ===
/** The hero's typed-text effect: one step of `typeEffect` computes the next
    cursor state, the text shown, and the delay before the next step. Timers
    are not modelled; the delay is returned. */
module TypedText {
  import JsText

  const Phrases: seq<string> := ["Junior Developer", ".NET & PHP Developer", "Problem Solver", "Web Developer"]

  const TypeDelay: nat := 120
  const DeleteDelay: nat := 60
  const HoldDelay: nat := 1800
  const NextPhraseDelay: nat := 400

  datatype Cursor = Cursor(phraseIndex: nat, charIndex: int, deleting: bool)

  /** The result of one step: the next cursor, the text shown, and the delay
      until the next step. */
  datatype Tick = Tick(next: Cursor, shown: string, delay: nat)

  const Start: Cursor := Cursor(0, 0, false)

  predicate ValidPhrases(ps: seq<string>) {
    |ps| > 0 && forall i :: 0 <= i < |ps| ==> |ps[i]| > 0
  }

  /** The cursor states the effect passes through: while typing, a character
      remains to type; while deleting, a character remains to delete. */
  predicate Valid(ps: seq<string>, c: Cursor) {
    && c.phraseIndex < |ps|
    && (if c.deleting then 1 <= c.charIndex <= |ps[c.phraseIndex]|
        else 0 <= c.charIndex < |ps[c.phraseIndex]|)
  }

  /** The phrase after phrase `i`, wrapping around to the first. */
  function NextPhrase(ps: seq<string>, i: nat): (j: nat)
    requires i < |ps|
    ensures j < |ps|
    ensures j == if i + 1 == |ps| then 0 else i + 1
  {
    (i + 1) % |ps|
  }

  /** One call of `typeEffect`. Deletion starts, after the
      hold delay, exactly when the whole phrase is shown; it ends, after the
      next-phrase delay, exactly when nothing is shown, moving to the next
      phrase. Otherwise the delay is the typing or the deleting one. */
  function Step(ps: seq<string>, c: Cursor): (t: Tick)
    requires c.phraseIndex < |ps|
    ensures t.next.phraseIndex < |ps|
    ensures Valid(ps, c) ==>
              (t.delay == HoldDelay <==> !c.deleting && c.charIndex + 1 == |ps[c.phraseIndex]|)
    ensures t.delay == HoldDelay ==> t.next == Cursor(c.phraseIndex, |ps[c.phraseIndex]|, true)
    ensures Valid(ps, c) ==> (t.delay == NextPhraseDelay <==> c.deleting && c.charIndex == 1)
    ensures t.delay == NextPhraseDelay ==> t.next == Cursor(NextPhrase(ps, c.phraseIndex), 0, false)
    ensures t.delay == TypeDelay ==> t.next == Cursor(c.phraseIndex, c.charIndex + 1, false)
    ensures t.delay == DeleteDelay ==> t.next == Cursor(c.phraseIndex, c.charIndex - 1, true)
    ensures !c.deleting ==> t.delay == TypeDelay || t.delay == HoldDelay
    ensures c.deleting ==> t.delay == DeleteDelay || t.delay == NextPhraseDelay
  {
    var current := ps[c.phraseIndex];
    var shown := if c.deleting then JsText.Substring0(current, c.charIndex - 1)
                 else JsText.Substring0(current, c.charIndex + 1);
    var charIndex := if c.deleting then c.charIndex - 1 else c.charIndex + 1;
    var delay := if c.deleting then DeleteDelay else TypeDelay;
    if !c.deleting && charIndex == |current| then
      Tick(Cursor(c.phraseIndex, charIndex, true), shown, HoldDelay)
    else if c.deleting && charIndex == 0 then
      Tick(Cursor(NextPhrase(ps, c.phraseIndex), charIndex, false), shown, NextPhraseDelay)
    else
      Tick(Cursor(c.phraseIndex, charIndex, c.deleting), shown, delay)
  }

  /** From a valid cursor the next cursor is valid, so `0 <= charIndex <=
      |phrase|` always holds, and the text shown is the first `charIndex`
      characters of the phrase the next cursor is on. */
  lemma StepShowsPrefix(ps: seq<string>, c: Cursor)
    requires ValidPhrases(ps) && Valid(ps, c)
    ensures Valid(ps, Step(ps, c).next)
    ensures Step(ps, c).shown == ps[Step(ps, c).next.phraseIndex][..Step(ps, c).next.charIndex]
  {
  }

  /** The cursor after `k` steps. */
  function Steps(ps: seq<string>, c: Cursor, k: nat): (r: Cursor)
    requires c.phraseIndex < |ps|
    ensures r.phraseIndex < |ps|
    decreases k
  {
    if k == 0 then c else Steps(ps, Step(ps, c).next, k - 1)
  }

  lemma {:induction false} StepsAdd(ps: seq<string>, c: Cursor, a: nat, b: nat)
    requires c.phraseIndex < |ps|
    ensures Steps(ps, c, a + b) == Steps(ps, Steps(ps, c, a), b)
    decreases a
  {
    if a > 0 {
      StepsAdd(ps, Step(ps, c).next, a - 1, b);
    }
  }

  /** Typing: from any typing cursor, the rest of the phrase is typed one
      character per step, ending in deletion mode with the whole phrase. */
  lemma {:induction false} TypingPhase(ps: seq<string>, c: Cursor)
    requires ValidPhrases(ps) && Valid(ps, c) && !c.deleting
    ensures Steps(ps, c, |ps[c.phraseIndex]| - c.charIndex)
              == Cursor(c.phraseIndex, |ps[c.phraseIndex]|, true)
    decreases |ps[c.phraseIndex]| - c.charIndex
  {
    var n := |ps[c.phraseIndex]| - c.charIndex;
    var next := Step(ps, c).next;
    if n > 1 {
      TypingPhase(ps, next);
    }
  }

  /** Deleting: from any deleting cursor, one character goes per step, ending
      typing the next phrase from nothing. */
  lemma {:induction false} DeletingPhase(ps: seq<string>, c: Cursor)
    requires ValidPhrases(ps) && Valid(ps, c) && c.deleting
    ensures Steps(ps, c, c.charIndex) == Cursor((c.phraseIndex + 1) % |ps|, 0, false)
    decreases c.charIndex
  {
    var next := Step(ps, c).next;
    if c.charIndex > 1 {
      DeletingPhase(ps, next);
    }
  }

  /** A full cycle: typing a phrase and deleting it again takes twice its
      length in steps and moves on to the next phrase, wrapping around. */
  lemma FullCycle(ps: seq<string>, p: nat)
    requires ValidPhrases(ps) && p < |ps|
    ensures Steps(ps, Cursor(p, 0, false), 2 * |ps[p]|) == Cursor((p + 1) % |ps|, 0, false)
  {
    var c := Cursor(p, 0, false);
    var n := |ps[p]|;
    TypingPhase(ps, c);
    StepsAdd(ps, c, n, n);
    DeletingPhase(ps, Cursor(p, n, true));
  }

  /** The effect's start state is valid for the site's phrases. */
  lemma StartIsValid()
    ensures ValidPhrases(Phrases) && Valid(Phrases, Start)
  {
  }
}
